=== FILE: README.md ===
# Installed-version list of the owlcms and owlcms-firmata launchers

The launchers keep each installed release in a directory of their own, named after the
version (`4.2.1`, `56.0.0-rc3`). The version list turns that directory into the rows of
the user interface. It does the following:

- accepts the directories whose names match `^\d+\.\d+\.\d+(?:-(?:rc|alpha|beta)(?:\d+)?)?$`
  and that semver.NewVersion parses;
- lists them newest first;
- picks the latest installed version, the latest pre-release and the latest stable release;
- offers per-row actions: Launch, Import Data and Config, Update and Remove.

Import and Update copy data between installations with `copyFiles`.

The component exists in two near-identical revisions:

- `versionList.go`, the owlcms-firmata launcher (called `Firmata` below);
- `versionlist.go`, the OWLCMS launcher (called `Owlcms` below).

One model covers both. `Actions.Variant` selects the places where they differ: the
launch error message, and which directories the import copies and how it treats a
failed copy.

Modules:

- `Options`: the optional value.
- `Sequences`: a fact about concatenation that the proofs share.
- `Decimal`: digit strings, their value, and decimal rendering.
- `SemVer`: the name grammar, `Parse` (semver.NewVersion on these names) and `Format`
  (`Version.String()`). Also the precedence order of Semantic Versioning 2.0.0, section 11,
  restricted to this grammar. Major, minor and patch compare numerically. A release ranks
  above its pre-releases. Two pre-release identifiers always contain letters, so they
  compare lexically in ASCII order (`rc10` ranks below `rc9`).
- `NewestFirst`: the descending sort and its uniqueness. Versions of equal precedence
  are equal, so every non-increasing permutation is the same list, and the instability
  of Go's `sort.Sort` cannot show.
- `Installed`: the enumeration and the three "latest" selections. Also the
  current-version filter, the initial row selection and removal.
- `CopyTree`: `copyFiles` over an abstract walk of the source tree.
- `Actions`: the launch guard, the import button and form, the update comparison, the
  update button, and the copies of an update.

Assumptions about code that is not part of this model:

- `extractSemverTag` is the identity on the listed names.
- `containsPreReleaseTag(s)` holds when `s` parses with a pre-release field.
- `launchOwlcms` tracks the process it started when it succeeds.
- `checkJava`, `launchOwlcms`, `getMostRecentStableRelease` and `getMostRecentPrerelease`
  are inputs.
- The directory listing, `os.Stat` and the visits of `filepath.Walk` are inputs.

## Model

| member | source | states |
|---|---|---|
| SemVer.SplitJoin | versionList.go:34 | every name of the directory-name grammar is recognised, and split back into the fields it was built from |
| SemVer.SplitSound | versionList.go:34 | only names of the grammar are recognised: a recognised name is made of digit segments and an rc/alpha/beta tag |
| SemVer.Parse | versionList.go:37-41 | semver.NewVersion on a directory name: a name the model's Parse accepts matches the pattern, and its value has segments below 2^64 and an rc/alpha/beta tag or none |
| SemVer.ParseFormat | versionList.go:47-50 | the String() of a version parses back to the same version |
| SemVer.FormatParse | versionlist.go:41-44 | for a name written without leading zeros, the listed string is the directory name itself |
| SemVer.FormatIsCanonical | versionList.go:49 | String() writes no leading zeros and matches the pattern |
| SemVer.Precedes | versionList.go:45 | the comparison behind the sort, `GreaterThan` and adjustUpdateButton: major, minor and patch numerically, then the pre-release field; no version ranks strictly below itself |
| SemVer.PrecedesTransitive | versionList.go:45 | the precedence order used by the sort is transitive |
| SemVer.PrecedesAsymmetric | versionList.go:88 | if a ranks below b, then b ranks at least as high as a |
| SemVer.PrecedesTotal | versionList.go:45 | two versions are equal or one ranks strictly below the other |
| SemVer.AtLeastAntisymmetric | versionList.go:45 | versions that each rank at least as high as the other are equal |
| SemVer.AtLeastTransitive | versionList.go:45 | "ranks at least as high" is transitive |
| SemVer.ReleaseAbovePrerelease | versionList.go:45 | a release ranks above each of its own pre-releases |
| NewestFirst.Insert | versionList.go:45 | inserting into a newest-first list keeps it newest first and adds exactly the one version |
| NewestFirst.Sort | versionList.go:45 | the sorted list is newest first and a permutation of its input |
| NewestFirst.HeadIsMaximum | versionList.go:77-78 | the first version of a newest-first list ranks at least as high as every version in it |
| NewestFirst.SortedUnique | versionList.go:45 | two newest-first lists with the same versions are identical, so the order of equal versions cannot differ |
| NewestFirst.SortIsCanonical | versionlist.go:39 | any newest-first arrangement of the accepted versions is the list the sort produces |
| Installed.ScanEntries | versionList.go:36-43 | every accepted version is valid: 64-bit segments and an rc/alpha/beta tag or none |
| Installed.ScanMembers | versionList.go:36-43 | a version is collected exactly when some directory entry with a matching name parses to it |
| Installed.InstalledVersions | versionList.go:27-53 | an unreadable directory lists nothing; one string per accepted entry; every listed string parses (the same code is at versionlist.go:21-47) |
| Installed.EnumerationMembers | versionList.go:34-43 | a version is listed exactly when a directory (not a file) with a matching, parsing name denotes it |
| Installed.ScannedIsListed | versionlist.go:30-37 | every accepted directory's version appears in the list |
| Installed.ListedIsScanned | versionlist.go:41-44 | every listed string is the string of an accepted version |
| Installed.EnumerationSorted | versionList.go:45-52 | the list is in non-increasing precedence |
| Installed.NewerListedFirst | versionlist.go:39-46 | a version listed after another never outranks it |
| Installed.EnumerationPermutation | versionList.go:45-52 | for names without leading zeros, the list is a permutation of the accepted directory names |
| Installed.EnumerationUnique | versionlist.go:39-46 | any newest-first arrangement of the accepted versions gives the same list |
| Installed.FormatAllAt | versionList.go:47-50 | the string at each position of the list is the String() of the version at that position |
| Installed.FormatAllSort | versionList.go:47-50 | sorting before rendering gives the same strings, each as often, as rendering the unsorted versions |
| Installed.LatestInstalled | versionList.go:55-79 | "" when unreadable or nothing is accepted; otherwise an accepted version that ranks at least as high as every accepted one (likewise versionlist.go:49-73) |
| Installed.LatestIsFirstListed | versionList.go:77-78 | the latest installed version is the first listed, or "" when the list is empty |
| Installed.PrereleaseScanIsFilter | versionList.go:106-115 | the pre-release pattern keeps exactly the tagged versions that the full pattern accepts |
| Installed.LatestPrereleaseInstalled | versionList.go:99-123 | "" exactly when no tagged version is installed; otherwise a tagged installed version that no installed pre-release outranks |
| Installed.LatestStableInstalled | versionList.go:81-97 | "" exactly when every installed version is tagged; otherwise an untagged installed version at least as high as every untagged one |
| Installed.HighestRelease | versionList.go:83-92 | the loop keeps the highest untagged version seen, found at a position of the list, and none only if no listed string is untagged |
| Installed.NewMaximum | versionList.go:88-89 | replacing the running maximum by a strictly greater version keeps it a maximum |
| Installed.StableOfEnumeration | versionList.go:83 | the maximum over the listed strings is the maximum over the accepted directories |
| Installed.FilterVersions | versionList.go:438-446 | the result holds exactly the versions different from the current one, each as often as before (likewise versionlist.go:242-250) |
| Installed.FilterVersionsAppend | versionList.go:440-444 | filtering keeps the order: filtering a concatenation concatenates the filtered parts |
| Installed.FilterVersionsKeepsOthers | versionlist.go:244-248 | a list without the current version passes unchanged |
| Installed.IndexOf | versionList.go:182-187 | the first position holding the name, or none exactly when the name is absent |
| Installed.InitialSelection | versionList.go:177-188 | a row is selected exactly when the list is non-empty; it is the first row holding the latest version when that version is listed, and row 0 otherwise |
| Installed.SelectionIsNewest | versionlist.go:220-231 | the row initially selected is the first, newest one |
| Installed.RemoveEntry | versionList.go:290 | removing a version directory drops exactly the entries of that name |
| Installed.AcceptedNamesAfterRemove | versionlist.go:138-145 | the accepted names after a removal are the old ones with that name filtered out |
| Installed.RemovedVersionNotListed | versionList.go:290-298 | after a removal the version is no longer listed and every other listed version still is |
| CopyTree.RelPath | versionList.go:464-467 | for the root and the paths below it, which are all the paths the walk produces, the relative path is the part below the root, and joining it back gives the path |
| CopyTree.RelPathOfJoin | versionList.go:464-469 | the relative path of a joined path is the part that was joined |
| CopyTree.Step | versionList.go:459-481 | one callback returns an error exactly when Walk passed it an error (for the paths the walk produces), and otherwise performs at most one action: a MkdirAll or a file copy |
| CopyTree.StepPlaced | versionList.go:469-481 | the action of one callback targets the destination path that mirrors the visited path |
| CopyTree.Walk | versionList.go:459 | filepath.Walk calls the callback once per visit in order, so the walk performs at most one action per visit |
| CopyTree.WalkOk | versionList.go:459-499 | the walk returns nil exactly when every visit succeeds |
| CopyTree.WalkPlaced | versionlist.go:263-302 | every action of the walk targets the destination path that mirrors its source path |
| CopyTree.CopyFiles | versionList.go:448-458 | without alwaysCopy a failed stat of the source returns an error before anything is copied; success needs a good stat and a clean walk (likewise versionlist.go:252-262) |
| CopyTree.WalkAppend | versionList.go:459-462 | an error returned by the callback stops the walk: the second part runs only if the first succeeded |
| CopyTree.StopsAtFirstFailure | versionlist.go:263-271 | the actions performed are those of the visits before the first failure, and the result is an error |
| CopyTree.WalkCovers | versionList.go:471-481 | on a clean walk every directory is recreated and every file that is not skipped is copied to its mirrored path |
| CopyTree.CopiedFromVisit | versionList.go:475-483 | a copied file was visited as a file and passed the freshness rule |
| CopyTree.AlwaysCopyCopiesEverything | versionList.go:475-483 | with alwaysCopy every file of a clean walk is copied, whatever the stat of the root |
| CopyTree.CopiedFileIsFresh | versionlist.go:279-284 | without alwaysCopy a copied file is not older than the source root |
| CopyTree.FreshnessDecidesCopy | versionlist.go:279-286 | without alwaysCopy a file is copied exactly when its modification time is not before the root's; an equal time is copied |
| Actions.Launch | versionList.go:333-349 | the launch is refused with "owlcms-firmata is already running" exactly when a process is tracked, keeping the state; otherwise a failed Java check and a failed start are each reported as such, and a process is tracked exactly when both succeed; versionlist.go:111-127 is the same guard with "OWLCMS is already running" |
| Actions.LaunchGuardIgnoresInputs | versionlist.go:112-115 | while a process is tracked the outcome does not depend on the Java check or the start |
| Actions.SecondLaunchRefused | versionList.go:334-337 | a launch after a successful launch is refused and keeps the first process |
| Actions.FilterDropsOne | versionlist.go:168 | filtering distinct versions by one of them removes exactly one entry |
| Actions.ImportChoicesExist | versionlist.go:162-168 | when the dialog has another version to offer the Import button is shown; for a list without repeated versions, the converse holds too |
| Actions.ImportRequests | versionList.go:225-236 | every copy goes from a sub-directory of the source version to the same sub-directory of the row's version, database first; owlcms-firmata copies database, local and config all unconditionally; OWLCMS (versionlist.go:195-204) copies the database unconditionally and then local with the freshness rule |
| Actions.Import | versionlist.go:176-206 | cancel, empty selection and missing source copy nothing; OWLCMS completes exactly when the freshness-filtered local copy succeeds, while owlcms-firmata (versionList.go:206-238) completes whenever the guards pass |
| Actions.ImportWritesIntoVersion | versionlist.go:187-204 | every file the import writes lands in the row's version, in the sub-directory it came from in the source version |
| Actions.MissingLocalDirectory | versionlist.go:199-204 | a source without a local directory fails the OWLCMS import; the owlcms-firmata import still completes |
| Actions.UpdateTarget | versionList.go:353-369 | an update target exists only when both names parse, and it is the most recent release |
| Actions.UpdateGoesUp | versionList.go:354-358 | an update is offered exactly when the release is strictly newer; equal or older versions get none |
| Actions.UpdateAsymmetric | versionList.go:357 | of two versions at most one is an update to the other |
| Actions.NothingInstalledOutranksLatest | versionList.go:353-369 | no installed version is an update to the latest installed version |
| Actions.UpdateButtonFor | versionList.go:245-277 | no button exactly when releases are unknown or the newest stable or pre-release is installed; otherwise the button updates exactly when the release of the version's own kind was found and is strictly newer, and it targets that release |
| Actions.UpdateRequests | versionList.go:398-423 | a failed download copies nothing; otherwise database, local and config are copied unconditionally from the existing version into the target |
| Actions.UpdateCopiesLikeImport | versionList.go:404-423 | an update copies the same directories as the owlcms-firmata import |

## Left out

- User interface: widgets, dialogs, layout, labels, button visibility beyond the guards
  modelled, `recomputeVersionList`, `updateExplanation` and `computeVersionScrollHeight`.
  They only arrange what the modelled functions compute.
- Filesystem I/O: `os.ReadDir`, `Stat`, `Walk`, `MkdirAll`, `Open`, `OpenFile`, `io.Copy`,
  `RemoveAll`, `Mkdir`. A directory is a list of entries, a stat is a time or an error,
  and a walk is a list of visits. Failures of `MkdirAll`, `Open`, `OpenFile` and `io.Copy`
  are not modelled, nor are file modes or contents.
- The download of an update, `downloadUtils.DownloadArchive` and the release URL. This is
  network plumbing; the model only takes whether the download succeeded.
- `checkJava`, `launchOwlcms`, `openFileExplorer`, `getMostRecentStableRelease`,
  `getMostRecentPrerelease`, `extractSemverTag` and `containsPreReleaseTag`. Their code is
  not part of this model; they are inputs or the assumptions stated above.
- Actions.UpdateButtonFor: the release lookups are called twice in the source, and the
  model assumes both calls return the same answer.
- Concurrency: the launcher's goroutines and the shared `currentProcess` variable.
- `time.Time`: modification times are integers, and `Before` is `<`.
- SemVer.Parse: semver.NewVersion also accepts names outside the directory pattern (a `v`
  prefix, missing segments, build metadata, other pre-release identifiers). The directory
  names reach it only after the pattern, so for them the model is exact. The release
  names of the online lookups reach it unchecked, and the model treats any of them
  outside the pattern as unparseable. Leading zeros in numeric segments are accepted,
  and no property depends on how the library treats them.
- Actions.UpdateTarget: a release name that semver.NewVersion parses but the directory
  pattern rejects (`v2.0.0`, `2.0.0+1`, `2.0.0-rc.1`) gets no target, where the source
  would offer the update.
- Actions.UpdateButtonFor: for such a release name the model shows a plain Update button,
  where the source would label it with the release.
- Installed.EnumerationPermutation: stated only for directory names written without
  leading zeros, where String() gives back the name.
- Installed.RemovedVersionNotListed: stated only for directory names written without
  leading zeros.
- Actions.ImportChoicesExist: the converse direction (button shown, so another version is offered)
  is stated for a list without repeated versions.
- CopyTree.Step: a visited path outside the source root is an error in the model, where
  filepath.Rel would return a path climbing out with `..`. filepath.Walk only produces the
  root and paths below it, so the case does not arise.
- Actions.Launch: process identifiers stand for the tracked `*exec.Cmd`.

=== FILE: actions.dfy ===
/**
  The per-version actions of the version list: Launch, Import Data and Config, and
  Update, in the two variants of the component (owlcms-firmata and OWLCMS).

  The helpers these actions call are not part of this model and appear as inputs: the
  Java check and the process start (checkJava, launchOwlcms), the online release lookups
  (getMostRecentStableRelease, getMostRecentPrerelease), and the filesystem, seen through
  os.Stat and filepath.Walk.
 */
module Actions {
  import opened Options
  import opened SemVer
  import opened Installed
  import CopyTree

  /** Firmata is the owlcms-firmata launcher, Owlcms the OWLCMS launcher. */
  datatype Variant = Firmata | Owlcms

  // ---------------------------------------------------------------------------
  // Launch
  // ---------------------------------------------------------------------------

  datatype LaunchOutcome =
    | AlreadyRunning(message: string)
    | JavaCheckFailed
    | StartFailed
    | Launched(pid: nat)

  function AlreadyRunningMessage(variant: Variant): (m: string)
    ensures |m| > 0
  {
    match variant
    case Firmata => "owlcms-firmata is already running"
    case Owlcms => "OWLCMS is already running"
  }

  /** The Launch button: `current` is the tracked process, `javaOk` the result of the Java
      check and `start` the process launchOwlcms started (None for its error). Returns the
      outcome and the process tracked afterwards. */
  function Launch(variant: Variant, current: Option<nat>, javaOk: bool, start: Option<nat>): (r: (LaunchOutcome, Option<nat>))
    ensures current.Some? ==> r.0 == AlreadyRunning(AlreadyRunningMessage(variant)) && r.1 == current
    ensures current.None? ==> (r.1.Some? <==> javaOk && start.Some?)
    ensures r.0.Launched? <==> current.None? && r.1.Some?
    ensures r.0.Launched? ==> r.1 == Some(r.0.pid) && start == r.1
    ensures r.0 == JavaCheckFailed <==> current.None? && !javaOk
    ensures r.0.AlreadyRunning? <==> current.Some?
    ensures r.0 == StartFailed <==> current.None? && javaOk && start.None?
  {
    if current.Some? then (AlreadyRunning(AlreadyRunningMessage(variant)), current)
    else if !javaOk then (JavaCheckFailed, None)
    else match start
      case None => (StartFailed, None)
      case Some(pid) => (Launched(pid), Some(pid))
  }

  /** While a process is tracked, neither the Java check nor the start is consulted. */
  lemma LaunchGuardIgnoresInputs(variant: Variant, pid: nat, javaOk: bool, start: Option<nat>, javaOk': bool, start': Option<nat>)
    ensures Launch(variant, Some(pid), javaOk, start) == Launch(variant, Some(pid), javaOk', start')
  {
  }

  /** A second launch after a successful one is refused and keeps the first process. */
  lemma SecondLaunchRefused(variant: Variant, pid: nat, javaOk: bool, start: Option<nat>)
    ensures var first := Launch(variant, None, true, Some(pid));
      Launch(variant, first.1, javaOk, start) == (AlreadyRunning(AlreadyRunningMessage(variant)), Some(pid))
  {
  }

  // ---------------------------------------------------------------------------
  // Import Data and Config
  // ---------------------------------------------------------------------------

  /** The Import button is shown only when another installed version could be a source. */
  predicate ImportButtonShown(versions: seq<string>) {
    |versions| > 1
  }

  predicate Distinct(s: seq<string>) {
    forall i, j :: 0 <= i < j < |s| ==> s[i] != s[j]
  }

  /** Filtering a list of distinct versions removes exactly one entry, when present. */
  lemma {:induction false} FilterDropsOne(versions: seq<string>, current: string)
    requires Distinct(versions) && current in versions
    ensures |FilterVersions(versions, current)| == |versions| - 1
  {
    assert versions == [versions[0]] + versions[1..];
    assert Distinct(versions[1..]) by {
      assert forall i :: 0 <= i < |versions| - 1 ==> versions[1..][i] == versions[i + 1];
    }
    if versions[0] == current {
      assert current !in versions[1..] by {
        forall i | 0 <= i < |versions| - 1 ensures versions[1..][i] != current {
          assert versions[1..][i] == versions[i + 1];
        }
      }
      FilterVersionsKeepsOthers(versions[1..], current);
    } else {
      FilterDropsOne(versions[1..], current);
    }
  }

  /** The button is shown exactly when the import dialog has a source version to offer. */
  lemma ImportChoicesExist(versions: seq<string>, version: string)
    requires version in versions
    ensures FilterVersions(versions, version) != [] ==> ImportButtonShown(versions)
    ensures Distinct(versions) ==> (ImportButtonShown(versions) <==> FilterVersions(versions, version) != [])
  {
    var others := FilterVersions(versions, version);
    if others != [] {
      assert others[0] in versions && others[0] != version;
    }
    if Distinct(versions) {
      FilterDropsOne(versions, version);
    }
  }

  /** The outcome of os.Stat: only a not-exist error stops the import. */
  datatype Stat = Found(modTime: int) | NotExist | StatFailed

  /** What the import and update actions see of the disk. */
  datatype FileSystem = FileSystem(stat: CopyTree.Path -> Stat, walk: CopyTree.Path -> seq<CopyTree.Visit>)

  /** One copyFiles call. */
  datatype Request = Request(from: CopyTree.Path, to: CopyTree.Path, alwaysCopy: bool)

  function RootTime(s: Stat): (t: Option<int>)
    ensures t.Some? <==> s.Found?
  {
    if s.Found? then Some(s.modTime) else None
  }

  /** Runs one copyFiles call against the disk. */
  function Copy(fs: FileSystem, q: Request): (r: CopyTree.Outcome)
    ensures forall a :: a in r.performed ==> CopyTree.Placed(q.from, q.to, a)
  {
    CopyTree.CopyFiles(q.from, q.to, q.alwaysCopy, RootTime(fs.stat(q.from)), fs.walk(q.from))
  }

  /** The copy of one sub-directory of `from`'s installation into `to`'s. */
  function Mirror(installDir: CopyTree.Path, from: string, to: string, sub: string, alwaysCopy: bool): Request {
    Request(installDir + [from, sub], installDir + [to, sub], alwaysCopy)
  }

  /** The copies the import makes, in order: owlcms-firmata copies database, local and
      config unconditionally; OWLCMS copies the database unconditionally and only the
      local files not older than the source's local directory. */
  function ImportRequests(variant: Variant, installDir: CopyTree.Path, source: string, version: string): (r: seq<Request>)
    ensures |r| > 0 && r[0] == Mirror(installDir, source, version, "database", true)
    ensures forall q :: q in r ==>
      && |q.from| == |q.to| == |installDir| + 2
      && q.from[..|installDir| + 1] == installDir + [source]
      && q.to[..|installDir| + 1] == installDir + [version]
      && q.from[|installDir| + 1] == q.to[|installDir| + 1]
    ensures variant == Firmata ==>
      && |r| == 3
      && r[1].from[|installDir| + 1] == "local"
      && r[2].from[|installDir| + 1] == "config"
      && forall q :: q in r ==> q.alwaysCopy
    ensures variant == Owlcms ==>
      && |r| == 2
      && r[1] == Mirror(installDir, source, version, "local", false)
  {
    match variant
    case Firmata =>
      [Mirror(installDir, source, version, "database", true),
       Mirror(installDir, source, version, "local", true),
       Mirror(installDir, source, version, "config", true)]
    case Owlcms =>
      [Mirror(installDir, source, version, "database", true),
       Mirror(installDir, source, version, "local", false)]
  }

  datatype ImportFailure = EmptySource | MissingSource | LocalCopyFailed

  datatype ImportOutcome = Cancelled | Failed(reason: ImportFailure) | Completed

  /** The outcome shown to the user and the copyFiles calls made, in order. */
  datatype ImportRun = ImportRun(outcome: ImportOutcome, copies: seq<Request>)

  /** The form's callback: `confirmed` is the Import/Cancel choice, `selected` the source
      version picked in the drop-down ("" when none), `version` the row's version. */
  function Import(variant: Variant, fs: FileSystem, installDir: CopyTree.Path, version: string, confirmed: bool, selected: string): (r: ImportRun)
    ensures r.outcome == Cancelled <==> !confirmed
    ensures r.outcome == Failed(EmptySource) <==> confirmed && selected == ""
    ensures r.outcome == Failed(MissingSource) <==> confirmed && selected != "" && fs.stat(installDir + [selected]).NotExist?
    ensures r.copies != [] <==> confirmed && selected != "" && !fs.stat(installDir + [selected]).NotExist?
    ensures r.copies != [] ==> r.copies == ImportRequests(variant, installDir, selected, version)
    ensures variant == Firmata ==> (r.outcome == Completed <==> r.copies != [])
    ensures variant == Owlcms ==> (r.outcome == Completed <==> r.copies != [] && Copy(fs, r.copies[1]).ok)
  {
    if !confirmed then ImportRun(Cancelled, [])
    else if selected == "" then ImportRun(Failed(EmptySource), [])
    else if fs.stat(installDir + [selected]).NotExist? then ImportRun(Failed(MissingSource), [])
    else
      var copies := ImportRequests(variant, installDir, selected, version);
      match variant
      case Firmata => ImportRun(Completed, copies)
      case Owlcms =>
        if Copy(fs, copies[1]).ok then ImportRun(Completed, copies)
        else ImportRun(Failed(LocalCopyFailed), copies)
  }

  /** Every file the import writes lands in the same sub-directory of the row's version
      that it came from in the source version. */
  lemma ImportWritesIntoVersion(variant: Variant, fs: FileSystem, installDir: CopyTree.Path, version: string, confirmed: bool, selected: string, k: nat, a: CopyTree.Action)
    requires k < |Import(variant, fs, installDir, version, confirmed, selected).copies|
    requires a in Copy(fs, Import(variant, fs, installDir, version, confirmed, selected).copies[k]).performed
    ensures |a.source| >= |installDir| + 2 && |a.target| >= |installDir| + 2
    ensures a.source[..|installDir| + 1] == installDir + [selected] && a.target[..|installDir| + 1] == installDir + [version]
    ensures a.source[|installDir| + 1..] == a.target[|installDir| + 1..]
  {
    var q := Import(variant, fs, installDir, version, confirmed, selected).copies[k];
    var n := |installDir| + 1;
    assert q.from[n] == q.to[n];
    assert CopyTree.Placed(q.from, q.to, a);
    assert a.source[n..] == [q.from[n]] + a.source[|q.from|..];
    assert a.target[n..] == [q.to[n]] + a.source[|q.from|..];
  }

  /** In OWLCMS, a source version without a local directory fails the import after the
      database was copied; owlcms-firmata reports success regardless. */
  lemma MissingLocalDirectory(fs: FileSystem, installDir: CopyTree.Path, version: string, selected: string)
    requires selected != "" && !fs.stat(installDir + [selected]).NotExist?
    requires !fs.stat(installDir + [selected, "local"]).Found?
    ensures Import(Owlcms, fs, installDir, version, true, selected).outcome == Failed(LocalCopyFailed)
    ensures Import(Firmata, fs, installDir, version, true, selected).outcome == Completed
  {
  }

  // ---------------------------------------------------------------------------
  // Update
  // ---------------------------------------------------------------------------

  /** adjustUpdateButton: the update target, present when both names parse and
      `mostRecent` is strictly newer than `version`. A name outside the directory-name
      grammar counts as unparseable here. */
  function UpdateTarget(mostRecent: string, version: string): (r: Option<string>)
    ensures r.Some? ==> r.value == mostRecent && Parse(mostRecent).Some? && Parse(version).Some?
  {
    match (Parse(mostRecent), Parse(version))
    case (Some(compare), Some(x)) => if Precedes(x, compare) then Some(mostRecent) else None
    case _ => None
  }

  /** An update only ever goes up: the target outranks the version, so an update to
      oneself or to an equal or older version is never offered. */
  lemma UpdateGoesUp(mostRecent: string, version: string)
    ensures UpdateTarget(mostRecent, version).Some? ==>
      AtLeast(Parse(mostRecent).value, Parse(version).value) && Parse(mostRecent) != Parse(version)
    ensures Parse(mostRecent).Some? && Parse(version).Some? && AtLeast(Parse(version).value, Parse(mostRecent).value) ==>
      UpdateTarget(mostRecent, version).None?
    ensures Parse(mostRecent).Some? && Parse(version).Some? && Precedes(Parse(version).value, Parse(mostRecent).value) ==>
      UpdateTarget(mostRecent, version) == Some(mostRecent)
  {
    if UpdateTarget(mostRecent, version).Some? {
      PrecedesAsymmetric(Parse(version).value, Parse(mostRecent).value);
      PrecedesIrreflexive(Parse(version).value);
    }
  }

  /** Of two versions at most one is an update to the other. */
  lemma UpdateAsymmetric(a: string, b: string)
    ensures !(UpdateTarget(a, b).Some? && UpdateTarget(b, a).Some?)
  {
    if UpdateTarget(a, b).Some? {
      PrecedesAsymmetric(Parse(b).value, Parse(a).value);
    }
  }

  /** No installed version is an update to the latest installed version. */
  lemma NothingInstalledOutranksLatest(d: Listing, x: string)
    requires x in InstalledVersions(d)
    ensures UpdateTarget(x, LatestInstalled(d)).None?
  {
    ListedIsScanned(d, x);
    var latest := LatestInstalled(d);
    assert latest != "";
    assert AtLeast(Parse(latest).value, Parse(x).value);
  }

  /** The answer of an online release lookup. */
  datatype Lookup = Latest(name: string) | LookupFailed

  datatype UpdateButton = NoButton | PlainButton | UpdateTo(target: string)

  /** The newest release of the installed kind is already installed. */
  predicate UpToDate(stable: Lookup, pre: Lookup, stableInstalled: string, preInstalled: string) {
    (!HasPrereleaseTag(stableInstalled) && stable.Latest? && stableInstalled == stable.name) ||
    (HasPrereleaseTag(preInstalled) && pre.Latest? && preInstalled == pre.name)
  }

  /** The release lookup that matches the kind of `version`: the pre-release lookup for a
      tagged version, the stable one otherwise. */
  function OwnRelease(version: string, stable: Lookup, pre: Lookup): Lookup {
    if HasPrereleaseTag(version) then pre else stable
  }

  /** Both names parse and `mostRecent` ranks strictly above `version`. */
  predicate IsNewer(mostRecent: string, version: string) {
    Parse(mostRecent).Some? && Parse(version).Some? && Precedes(Parse(version).value, Parse(mostRecent).value)
  }

  /** createUpdateButton in owlcms-firmata, called only when the release list is known:
      no button when the newest stable or pre-release is already installed; otherwise a
      button that updates the row's version to the newest release of its own kind when
      that release is strictly newer. */
  function UpdateButtonFor(releasesKnown: bool, version: string, stable: Lookup, pre: Lookup, stableInstalled: string, preInstalled: string): (r: UpdateButton)
    ensures r.NoButton? <==> !releasesKnown || UpToDate(stable, pre, stableInstalled, preInstalled)
    ensures r.UpdateTo? ==> OwnRelease(version, stable, pre) == Latest(r.target)
    ensures r.UpdateTo? ==> Parse(version).Some? && Parse(r.target).Some? && Precedes(Parse(version).value, Parse(r.target).value)
    ensures releasesKnown && !UpToDate(stable, pre, stableInstalled, preInstalled) ==>
      (r.UpdateTo? <==> OwnRelease(version, stable, pre).Latest? && IsNewer(OwnRelease(version, stable, pre).name, version))
  {
    if !releasesKnown || UpToDate(stable, pre, stableInstalled, preInstalled) then NoButton
    else
      match OwnRelease(version, stable, pre)
      case LookupFailed => PlainButton
      case Latest(mostRecent) =>
        match UpdateTarget(mostRecent, version)
        case Some(target) => UpdateTo(target)
        case None => PlainButton
  }

  /** updateVersion after a successful download: database, local and config of the
      existing version copied unconditionally into the new version's directory. */
  function UpdateRequests(installDir: CopyTree.Path, existing: string, target: string, downloaded: bool): (r: seq<Request>)
    ensures !downloaded ==> r == []
    ensures forall q :: q in r ==>
      && q.alwaysCopy
      && |q.from| == |q.to| == |installDir| + 2
      && q.from[..|installDir| + 1] == installDir + [existing]
      && q.to[..|installDir| + 1] == installDir + [target]
      && q.from[|installDir| + 1] == q.to[|installDir| + 1]
    ensures downloaded ==>
      && |r| == 3
      && r[0].from[|installDir| + 1] == "database"
      && r[1].from[|installDir| + 1] == "local"
      && r[2].from[|installDir| + 1] == "config"
  {
    if !downloaded then []
    else
      [Mirror(installDir, existing, target, "database", true),
       Mirror(installDir, existing, target, "local", true),
       Mirror(installDir, existing, target, "config", true)]
  }

  /** An update copies the same data that the owlcms-firmata import copies from the
      existing version into the target. */
  lemma UpdateCopiesLikeImport(fs: FileSystem, installDir: CopyTree.Path, existing: string, target: string)
    requires existing != "" && !fs.stat(installDir + [existing]).NotExist?
    ensures UpdateRequests(installDir, existing, target, true) == Import(Firmata, fs, installDir, target, true, existing).copies
  {
  }
}

=== FILE: copytree.dfy ===
/**
  copyFiles(srcDir, destDir, alwaysCopy): a filepath.Walk over the source tree that
  recreates every directory under the destination and copies every file, except that
  without `alwaysCopy` a file last modified strictly before the source root is skipped.

  The filesystem is abstract: a path is a sequence of components (filepath.Join is
  concatenation), a walk is the sequence of visits filepath.Walk would make (root
  first), modification times are integers, and a visit either carries the entry's
  path, kind and time or stands for the error Walk passed to the callback.
 */
module CopyTree {
  import opened Options
  import Sequences

  type Path = seq<string>

  datatype Visit = Visit(path: Path, isDir: bool, modTime: int) | VisitFailed

  /** What the walk does on the destination side, with the source entry it mirrors. */
  datatype Action = MakeDir(source: Path, target: Path) | CopyFile(source: Path, target: Path)

  /** The actions performed, in order, and whether copyFiles returned nil. */
  datatype Outcome = Outcome(performed: seq<Action>, ok: bool)

  predicate Under(base: Path, p: Path) {
    |base| <= |p| && p[..|base|] == base
  }

  /** filepath.Rel on the paths filepath.Walk hands the callback: the root and the paths
      below it, for which Rel gives the components below the root. For a path outside
      the root Rel would climb out with `..` components instead; the walk never produces
      such a path, and the model answers None for it. */
  function RelPath(base: Path, p: Path): (r: Option<Path>)
    ensures r.Some? <==> Under(base, p)
    ensures r.Some? ==> base + r.value == p
  {
    if Under(base, p) then Some(p[|base|..]) else None
  }

  /** RelPath undoes joining a relative path onto the base. */
  lemma RelPathOfJoin(base: Path, rel: Path)
    ensures RelPath(base, base + rel) == Some(rel)
  {
  }

  /** The freshness rule: only without alwaysCopy, and only files strictly older than the root. */
  predicate Skipped(alwaysCopy: bool, rootTime: int, modTime: int) {
    !alwaysCopy && modTime < rootTime
  }

  /** An action sits at the destination path that mirrors its source path. */
  predicate Placed(src: Path, dest: Path, a: Action) {
    Under(src, a.source) && a.target == dest + a.source[|src|..]
  }

  /** A visit the callback accepts: no error from Walk. Every path Walk produces lies
      below the source root, so the second conjunct only excludes visits Walk never makes. */
  predicate Succeeds(src: Path, v: Visit) {
    v.Visit? && Under(src, v.path)
  }

  predicate AllSucceed(src: Path, visits: seq<Visit>) {
    forall i :: 0 <= i < |visits| ==> Succeeds(src, visits[i])
  }

  /** Each visit names its own entry: the walk does not visit a path twice. */
  predicate DistinctPaths(visits: seq<Visit>) {
    forall i, j :: 0 <= i < j < |visits| && visits[i].Visit? && visits[j].Visit? ==> visits[i].path != visits[j].path
  }

  /** The callback for one visit: None is a returned error, which ends the walk. */
  function Step(src: Path, dest: Path, alwaysCopy: bool, rootTime: int, v: Visit): (r: Option<seq<Action>>)
    ensures r.Some? <==> Succeeds(src, v)
    ensures r.Some? ==> |r.value| <= 1
  {
    if v.VisitFailed? then None
    else match RelPath(src, v.path)
      case None => None
      case Some(rel) =>
        if v.isDir then Some([MakeDir(v.path, dest + rel)])
        else if Skipped(alwaysCopy, rootTime, v.modTime) then Some([])
        else Some([CopyFile(v.path, dest + rel)])
  }

  /** The action of one callback mirrors the visited path into the destination. */
  lemma StepPlaced(src: Path, dest: Path, alwaysCopy: bool, rootTime: int, v: Visit)
    ensures var r := Step(src, dest, alwaysCopy, rootTime, v);
      r.Some? ==> forall a :: a in r.value ==> Placed(src, dest, a) && a.source == v.path
  {
  }

  /** filepath.Walk: the callback on each visit in turn, stopping at the first error. */
  function Walk(src: Path, dest: Path, alwaysCopy: bool, rootTime: int, visits: seq<Visit>): (r: Outcome)
    ensures |r.performed| <= |visits|
    decreases |visits|
  {
    if visits == [] then Outcome([], true)
    else match Step(src, dest, alwaysCopy, rootTime, visits[0])
      case None => Outcome([], false)
      case Some(acts) =>
        var rest := Walk(src, dest, alwaysCopy, rootTime, visits[1..]);
        Outcome(acts + rest.performed, rest.ok)
  }

  /** The walk succeeds exactly when every visit succeeds. */
  lemma {:induction false} WalkOk(src: Path, dest: Path, alwaysCopy: bool, rootTime: int, visits: seq<Visit>)
    ensures Walk(src, dest, alwaysCopy, rootTime, visits).ok <==> AllSucceed(src, visits)
  {
    if visits != [] {
      WalkOk(src, dest, alwaysCopy, rootTime, visits[1..]);
      assert AllSucceed(src, visits) <==> Succeeds(src, visits[0]) && AllSucceed(src, visits[1..]) by {
        assert forall i :: 1 <= i < |visits| ==> visits[i] == visits[1..][i - 1];
      }
    }
  }

  /** Every action of the walk targets the destination path that mirrors its source path. */
  lemma {:induction false} WalkPlaced(src: Path, dest: Path, alwaysCopy: bool, rootTime: int, visits: seq<Visit>)
    ensures forall a :: a in Walk(src, dest, alwaysCopy, rootTime, visits).performed ==> Placed(src, dest, a)
  {
    if visits != [] {
      WalkPlaced(src, dest, alwaysCopy, rootTime, visits[1..]);
      StepPlaced(src, dest, alwaysCopy, rootTime, visits[0]);
    }
  }

  /** copyFiles: without alwaysCopy the source root is stat'ed first, and a failed stat
      is returned before the walk starts. */
  function CopyFiles(src: Path, dest: Path, alwaysCopy: bool, rootStat: Option<int>, visits: seq<Visit>): (r: Outcome)
    ensures r.ok <==> (alwaysCopy || rootStat.Some?) && AllSucceed(src, visits)
    ensures forall a :: a in r.performed ==> Placed(src, dest, a)
    ensures !alwaysCopy && rootStat.None? ==> r.performed == []
  {
    if !alwaysCopy && rootStat.None? then Outcome([], false)
    else
      var rootTime := if alwaysCopy then 0 else rootStat.value;
      WalkPlaced(src, dest, alwaysCopy, rootTime, visits);
      WalkOk(src, dest, alwaysCopy, rootTime, visits);
      Walk(src, dest, alwaysCopy, rootTime, visits)
  }

  /** One step of the walk: the first visit's actions, then the rest of the walk. */
  lemma WalkStep(src: Path, dest: Path, alwaysCopy: bool, rootTime: int, visits: seq<Visit>)
    requires visits != []
    ensures Walk(src, dest, alwaysCopy, rootTime, visits).performed ==
      match Step(src, dest, alwaysCopy, rootTime, visits[0])
      case None => []
      case Some(acts) => acts + Walk(src, dest, alwaysCopy, rootTime, visits[1..]).performed
  {
  }

  /** Walking a concatenation walks the first part, and the second only if the first succeeded. */
  lemma {:induction false} WalkAppend(src: Path, dest: Path, alwaysCopy: bool, rootTime: int, a: seq<Visit>, b: seq<Visit>)
    ensures Walk(src, dest, alwaysCopy, rootTime, a + b).performed ==
      if Walk(src, dest, alwaysCopy, rootTime, a).ok
      then Walk(src, dest, alwaysCopy, rootTime, a).performed + Walk(src, dest, alwaysCopy, rootTime, b).performed
      else Walk(src, dest, alwaysCopy, rootTime, a).performed
  {
    if a == [] {
      assert a + b == b;
    } else {
      SplitHead(a, b);
      WalkStep(src, dest, alwaysCopy, rootTime, a + b);
      WalkStep(src, dest, alwaysCopy, rootTime, a);
      WalkAppend(src, dest, alwaysCopy, rootTime, a[1..], b);
      var step := Step(src, dest, alwaysCopy, rootTime, a[0]);
      if step.Some? {
        Sequences.Associative(step.value, Walk(src, dest, alwaysCopy, rootTime, a[1..]).performed, Walk(src, dest, alwaysCopy, rootTime, b).performed);
      }
    }
  }

  lemma SplitHead(a: seq<Visit>, b: seq<Visit>)
    requires a != []
    ensures (a + b)[0] == a[0] && (a + b)[1..] == a[1..] + b
  {
  }

  /** The first failing visit ends the copy: what it performed is what the visits before
      the failure performed, and the result is an error. */
  lemma StopsAtFirstFailure(src: Path, dest: Path, alwaysCopy: bool, rootTime: int, visits: seq<Visit>, k: nat)
    requires k < |visits| && !Succeeds(src, visits[k])
    ensures Walk(src, dest, alwaysCopy, rootTime, visits).performed == Walk(src, dest, alwaysCopy, rootTime, visits[..k]).performed
    ensures !Walk(src, dest, alwaysCopy, rootTime, visits).ok
  {
    assert visits == visits[..k] + visits[k..];
    WalkAppend(src, dest, alwaysCopy, rootTime, visits[..k], visits[k..]);
    assert visits[k..][0] == visits[k];
    WalkOk(src, dest, alwaysCopy, rootTime, visits);
  }

  /** Every directory visited is recreated, and every file visited that is not skipped is
      copied, when the walk meets no error. */
  lemma {:induction false} WalkCovers(src: Path, dest: Path, alwaysCopy: bool, rootTime: int, visits: seq<Visit>, i: nat)
    requires AllSucceed(src, visits) && i < |visits|
    ensures var v := visits[i];
      (v.isDir ==> MakeDir(v.path, dest + v.path[|src|..]) in Walk(src, dest, alwaysCopy, rootTime, visits).performed) &&
      (!v.isDir && !Skipped(alwaysCopy, rootTime, v.modTime) ==>
        CopyFile(v.path, dest + v.path[|src|..]) in Walk(src, dest, alwaysCopy, rootTime, visits).performed)
  {
    assert Succeeds(src, visits[0]);
    if i > 0 {
      assert AllSucceed(src, visits[1..]) by {
        assert forall j :: 0 <= j < |visits| - 1 ==> visits[1..][j] == visits[j + 1];
      }
      WalkCovers(src, dest, alwaysCopy, rootTime, visits[1..], i - 1);
      assert visits[1..][i - 1] == visits[i];
    }
  }

  /** A copied file comes from a visit of that very file that the freshness rule let through. */
  lemma {:induction false} CopiedFromVisit(src: Path, dest: Path, alwaysCopy: bool, rootTime: int, visits: seq<Visit>, a: Action)
    requires a in Walk(src, dest, alwaysCopy, rootTime, visits).performed && a.CopyFile?
    ensures exists j :: 0 <= j < |visits| && visits[j].Visit? && visits[j].path == a.source && !visits[j].isDir && !Skipped(alwaysCopy, rootTime, visits[j].modTime)
  {
    match Step(src, dest, alwaysCopy, rootTime, visits[0])
    case None =>
    case Some(acts) =>
      var rest := Walk(src, dest, alwaysCopy, rootTime, visits[1..]);
      if a in acts {
        assert visits[0].Visit? && visits[0].path == a.source;
      } else {
        assert a in rest.performed;
        CopiedFromVisit(src, dest, alwaysCopy, rootTime, visits[1..], a);
        var j :| 0 <= j < |visits[1..]| && visits[1..][j].Visit? && visits[1..][j].path == a.source && !visits[1..][j].isDir && !Skipped(alwaysCopy, rootTime, visits[1..][j].modTime);
        assert visits[j + 1] == visits[1..][j];
      }
  }

  /** With alwaysCopy every file of the walk is copied to its mirrored destination,
      whatever the stat of the root said. */
  lemma AlwaysCopyCopiesEverything(src: Path, dest: Path, rootStat: Option<int>, visits: seq<Visit>, i: nat)
    requires AllSucceed(src, visits) && i < |visits| && !visits[i].isDir
    ensures CopyFile(visits[i].path, dest + visits[i].path[|src|..]) in CopyFiles(src, dest, true, rootStat, visits).performed
  {
    WalkCovers(src, dest, true, 0, visits, i);
  }

  /** Without alwaysCopy, a file that was copied is not older than the root. */
  lemma CopiedFileIsFresh(src: Path, dest: Path, rootTime: int, visits: seq<Visit>, i: nat)
    requires DistinctPaths(visits) && i < |visits| && Succeeds(src, visits[i]) && !visits[i].isDir
    requires CopyFile(visits[i].path, dest + visits[i].path[|src|..]) in Walk(src, dest, false, rootTime, visits).performed
    ensures visits[i].modTime >= rootTime
  {
    var a := CopyFile(visits[i].path, dest + visits[i].path[|src|..]);
    CopiedFromVisit(src, dest, false, rootTime, visits, a);
    var j :| 0 <= j < |visits| && visits[j].Visit? && visits[j].path == a.source && !visits[j].isDir && !Skipped(false, rootTime, visits[j].modTime);
    assert j == i;
  }

  /** Without alwaysCopy, a file is copied exactly when it is not older than the root: a
      modification time equal to the root's counts as fresh. */
  lemma FreshnessDecidesCopy(src: Path, dest: Path, rootTime: int, visits: seq<Visit>, i: nat)
    requires AllSucceed(src, visits) && DistinctPaths(visits) && i < |visits| && !visits[i].isDir
    ensures CopyFile(visits[i].path, dest + visits[i].path[|src|..]) in CopyFiles(src, dest, false, Some(rootTime), visits).performed
      <==> visits[i].modTime >= rootTime
  {
    if CopyFile(visits[i].path, dest + visits[i].path[|src|..]) in Walk(src, dest, false, rootTime, visits).performed {
      CopiedFileIsFresh(src, dest, rootTime, visits, i);
    }
    if visits[i].modTime >= rootTime {
      WalkCovers(src, dest, false, rootTime, visits, i);
    }
  }
}

=== FILE: decimal.dfy ===
/**
  Decimal digit strings: the `\d+` pieces of a version directory name, their
  numeric value (what strconv.ParseUint computes) and the decimal rendering of a
  number (what `%d` prints).
 */
module Decimal {

  predicate IsDigit(c: char) {
    '0' <= c <= '9'
  }

  predicate AllDigits(s: string) {
    forall i :: 0 <= i < |s| ==> IsDigit(s[i])
  }

  /** A non-empty digit string without a superfluous leading zero ("0" is fine, "07" is not). */
  predicate Canonical(s: string) {
    |s| > 0 && AllDigits(s) && (s[0] != '0' || |s| == 1)
  }

  function DigitValue(c: char): (d: nat)
    requires IsDigit(c)
    ensures d < 10
  {
    (c as int) - ('0' as int)
  }

  function DigitChar(d: nat): (c: char)
    requires d < 10
    ensures IsDigit(c) && DigitValue(c) == d
  {
    (('0' as int) + d) as char
  }

  /** The number a digit string denotes, most significant digit first; leading zeros add nothing. */
  function Value(s: string): nat
    requires AllDigits(s)
  {
    if s == [] then 0 else Value(s[..|s| - 1]) * 10 + DigitValue(s[|s| - 1])
  }

  /** The decimal rendering of `n`: the shortest digit string denoting it. */
  function Render(n: nat): (s: string)
    ensures Canonical(s)
    ensures |s| == 1 <==> n < 10
  {
    if n < 10 then [DigitChar(n)] else Render(n / 10) + [DigitChar(n % 10)]
  }

  lemma {:induction false} ValueOfRender(n: nat)
    ensures Value(Render(n)) == n
  {
    var s := Render(n);
    if n >= 10 {
      ValueOfRender(n / 10);
      assert s[..|s| - 1] == Render(n / 10);
    }
  }

  lemma {:induction false} ValuePositive(s: string)
    requires |s| > 0 && AllDigits(s) && s[0] != '0'
    ensures Value(s) > 0
  {
    if |s| > 1 {
      ValuePositive(s[..|s| - 1]);
    }
  }

  /** Rendering the value of a canonical digit string gives the string back. */
  lemma {:induction false} RenderOfValue(s: string)
    requires Canonical(s)
    ensures Render(Value(s)) == s
  {
    if |s| > 1 {
      var t := s[..|s| - 1];
      ValuePositive(t);
      RenderOfValue(t);
      assert Value(s) / 10 == Value(t);
      assert s == t + [s[|s| - 1]];
    }
  }
}

=== FILE: installed.dfy ===
/**
  The installation root and the lists computed from it: the enumeration of
  installed versions (getAllInstalledVersions), the latest installed, latest
  stable and latest pre-release versions, the "all but the current version"
  filter, the initial list selection and the effect of removing a version.

  The root is given as the result of reading it: unreadable, or a sequence of
  entries with a name and a directory flag.
 */
module Installed {
  import opened Options
  import opened SemVer
  import opened NewestFirst

  datatype Entry = Entry(name: string, isDir: bool)

  /** What os.ReadDir returned for the installation root. */
  datatype Listing = Unreadable | Entries(entries: seq<Entry>)

  /** A directory whose name matches the version pattern and parses. */
  predicate Accepted(e: Entry) {
    e.isDir && MatchesPattern(e.name) && Parse(e.name).Some?
  }

  /** The versions of the accepted entries, in directory order. */
  function ScanEntries(es: seq<Entry>): (r: seq<Version>)
    ensures forall i :: 0 <= i < |r| ==> Valid(r[i])
  {
    if es == [] then []
    else if Accepted(es[0]) then
      [Parse(es[0].name).value] + ScanEntries(es[1..])
    else ScanEntries(es[1..])
  }

  function Scan(d: Listing): seq<Version> {
    match d
    case Unreadable => []
    case Entries(es) => ScanEntries(es)
  }

  /** The names of the accepted entries, in directory order. */
  function AcceptedNames(d: Listing): seq<string> {
    match d
    case Unreadable => []
    case Entries(es) => AcceptedNamesOf(es)
  }

  function AcceptedNamesOf(es: seq<Entry>): seq<string> {
    if es == [] then []
    else if Accepted(es[0]) then [es[0].name] + AcceptedNamesOf(es[1..])
    else AcceptedNamesOf(es[1..])
  }

  /** Every accepted entry name is written without leading zeros. */
  predicate CanonicalNames(d: Listing) {
    d.Entries? ==> forall e :: e in d.entries && Accepted(e) ==> IsCanonicalName(e.name)
  }

  function FormatAll(s: seq<Version>): (r: seq<string>)
    ensures |r| == |s|
  {
    if s == [] then [] else [Format(s[0])] + FormatAll(s[1..])
  }

  /** The string at each position is the string of the version at that position. */
  lemma {:induction false} FormatAllAt(s: seq<Version>, i: nat)
    requires i < |s|
    ensures FormatAll(s)[i] == Format(s[i])
  {
    if i > 0 {
      FormatAllAt(s[1..], i - 1);
    }
  }

  // ---------------------------------------------------------------------------
  // Enumeration
  // ---------------------------------------------------------------------------

  /** getAllInstalledVersions: the strings of the accepted versions, newest first. */
  function InstalledVersions(d: Listing): (r: seq<string>)
    ensures d.Unreadable? ==> r == []
    ensures |r| == |Scan(d)|
    ensures forall i :: 0 <= i < |r| ==> Parse(r[i]).Some?
  {
    var sorted := Sort(Scan(d));
    assert |sorted| == |multiset(sorted)| == |multiset(Scan(d))| == |Scan(d)|;
    forall i | 0 <= i < |sorted| ensures Parse(FormatAll(sorted)[i]).Some? {
      assert sorted[i] in multiset(Scan(d));
      ParseFormat(sorted[i]);
      FormatAllAt(sorted, i);
    }
    FormatAll(sorted)
  }

  /** Scan picks out exactly the versions of the accepted directory entries. */
  lemma {:induction false} ScanMembers(es: seq<Entry>)
    ensures forall v :: v in ScanEntries(es) <==> exists e :: e in es && Accepted(e) && Parse(e.name) == Some(v)
  {
    if es != [] {
      ScanMembers(es[1..]);
      assert es == [es[0]] + es[1..];
      forall v | (exists e :: e in es && Accepted(e) && Parse(e.name) == Some(v))
        ensures v in ScanEntries(es)
      {
        var e :| e in es && Accepted(e) && Parse(e.name) == Some(v);
        if e != es[0] {
          assert e in es[1..];
        }
      }
    }
  }

  /** Every listed string is the string of an accepted entry's version, and every
      accepted entry's version is listed. */
  lemma EnumerationMembers(d: Listing)
    ensures forall v :: v in Scan(d) ==> Format(v) in InstalledVersions(d)
    ensures forall x :: x in InstalledVersions(d) ==> Parse(x).Some? && Parse(x).value in Scan(d)
  {
    var sorted := Sort(Scan(d));
    var r := InstalledVersions(d);
    forall v | v in Scan(d) ensures Format(v) in r {
      assert v in multiset(sorted);
      var k :| 0 <= k < |sorted| && sorted[k] == v;
      FormatAllAt(sorted, k);
      assert r[k] == Format(v);
    }
    forall x | x in r ensures Parse(x).Some? && Parse(x).value in Scan(d) {
      var k :| 0 <= k < |r| && r[k] == x;
      assert sorted[k] in multiset(Scan(d));
      ParseFormat(sorted[k]);
      FormatAllAt(sorted, k);
    }
  }

  /** One direction of EnumerationMembers, for a single version. */
  lemma ScannedIsListed(d: Listing, v: Version)
    requires v in Scan(d)
    ensures Format(v) in InstalledVersions(d)
  {
    EnumerationMembers(d);
  }

  /** The other direction of EnumerationMembers, for a single string. */
  lemma ListedIsScanned(d: Listing, x: string)
    requires x in InstalledVersions(d)
    ensures Parse(x).Some? && Parse(x).value in Scan(d)
  {
    EnumerationMembers(d);
  }

  /** The listed strings parse to versions in non-increasing precedence. */
  lemma EnumerationSorted(d: Listing)
    ensures forall i, j :: 0 <= i < j < |InstalledVersions(d)| ==>
      AtLeast(Parse(InstalledVersions(d)[i]).value, Parse(InstalledVersions(d)[j]).value)
  {
    var sorted := Sort(Scan(d));
    forall i | 0 <= i < |sorted| ensures Parse(InstalledVersions(d)[i]) == Some(sorted[i]) {
      assert sorted[i] in multiset(Scan(d));
      ParseFormat(sorted[i]);
      FormatAllAt(sorted, i);
    }
  }

  /** A version that outranks another is listed before it; in particular a release
      is listed before its own pre-releases. */
  lemma NewerListedFirst(d: Listing, i: nat, j: nat)
    requires i < |InstalledVersions(d)| && j < |InstalledVersions(d)|
    requires Precedes(Parse(InstalledVersions(d)[j]).value, Parse(InstalledVersions(d)[i]).value)
    ensures i < j
  {
    var listed := InstalledVersions(d);
    var lower, higher := Parse(listed[j]).value, Parse(listed[i]).value;
    EnumerationSorted(d);
    assert j < i ==> AtLeast(lower, higher);
  }

  lemma {:induction false} FormatAllInsert(v: Version, s: seq<Version>)
    requires Sorted(s)
    ensures multiset(FormatAll(Insert(v, s))) == multiset(FormatAll(s)) + multiset{Format(v)}
  {
    if s == [] || AtLeast(v, s[0]) {
      FormatAllCons(v, s);
    } else {
      var t := Insert(v, s[1..]);
      FormatAllInsert(v, s[1..]);
      FormatAllCons(s[0], t);
      FormatAllCons(s[0], s[1..]);
      assert [s[0]] + s[1..] == s;
    }
  }

  lemma FormatAllCons(x: Version, s: seq<Version>)
    ensures FormatAll([x] + s) == [Format(x)] + FormatAll(s)
    ensures multiset(FormatAll([x] + s)) == multiset{Format(x)} + multiset(FormatAll(s))
  {
    assert ([x] + s)[1..] == s;
  }

  /** Sorting the versions permutes their strings. */
  lemma {:induction false} FormatAllSort(s: seq<Version>)
    ensures multiset(FormatAll(Sort(s))) == multiset(FormatAll(s))
  {
    if s != [] {
      FormatAllSort(s[1..]);
      FormatAllInsert(s[0], Sort(s[1..]));
      assert FormatAll(s) == [Format(s[0])] + FormatAll(s[1..]);
    }
  }

  lemma {:induction false} AcceptedNamesFormat(es: seq<Entry>)
    requires forall e :: e in es && Accepted(e) ==> IsCanonicalName(e.name)
    ensures FormatAll(ScanEntries(es)) == AcceptedNamesOf(es)
  {
    if es != [] {
      assert es[0] in es;
      assert forall e :: e in es[1..] ==> e in es;
      AcceptedNamesFormat(es[1..]);
      if Accepted(es[0]) {
        FormatParse(es[0].name);
      }
    }
  }

  /** With canonical names, the enumeration is a permutation of the accepted names. */
  lemma EnumerationPermutation(d: Listing)
    requires CanonicalNames(d)
    ensures multiset(InstalledVersions(d)) == multiset(AcceptedNames(d))
  {
    FormatAllSort(Scan(d));
    if d.Entries? {
      AcceptedNamesFormat(d.entries);
    }
  }

  /** The enumeration is the only newest-first arrangement of the accepted versions. */
  lemma EnumerationUnique(d: Listing, t: seq<Version>)
    requires Sorted(t) && multiset(t) == multiset(Scan(d))
    ensures InstalledVersions(d) == FormatAll(t)
  {
    SortIsCanonical(Scan(d), t);
  }

  // ---------------------------------------------------------------------------
  // Selections
  // ---------------------------------------------------------------------------

  /** findLatestInstalled: "" when nothing is accepted, else the highest accepted version. */
  function LatestInstalled(d: Listing): (r: string)
    ensures d.Unreadable? ==> r == ""
    ensures r == "" <==> Scan(d) == []
    ensures r != "" ==> Parse(r).Some? && Parse(r).value in Scan(d)
    ensures r != "" ==> forall v :: v in Scan(d) ==> AtLeast(Parse(r).value, v)
  {
    var sorted := Sort(Scan(d));
    if |sorted| == 0 then ""
    else
      assert sorted[0] in multiset(Scan(d));
      ParseFormat(sorted[0]);
      HeadIsMaximum(sorted);
      assert forall v :: v in Scan(d) ==> v in multiset(sorted);
      Format(sorted[0])
  }

  /** The latest installed version is the first one listed. */
  lemma LatestIsFirstListed(d: Listing)
    ensures LatestInstalled(d) == (if InstalledVersions(d) == [] then "" else InstalledVersions(d)[0])
  {
  }

  /** A directory whose name matches the pre-release pattern and parses. */
  predicate AcceptedPrerelease(e: Entry) {
    e.isDir && MatchesPrereleasePattern(e.name) && Parse(e.name).Some?
  }

  function ScanPrereleaseEntries(es: seq<Entry>): (r: seq<Version>)
    ensures forall i :: 0 <= i < |r| ==> r[i].pre != ""
  {
    if es == [] then []
    else if AcceptedPrerelease(es[0]) then [Parse(es[0].name).value] + ScanPrereleaseEntries(es[1..])
    else ScanPrereleaseEntries(es[1..])
  }

  function ScanPrereleases(d: Listing): seq<Version> {
    match d
    case Unreadable => []
    case Entries(es) => ScanPrereleaseEntries(es)
  }

  /** The pre-release pattern keeps exactly the tagged versions of the full pattern. */
  lemma {:induction false} PrereleaseScanIsFilter(es: seq<Entry>)
    ensures ScanPrereleaseEntries(es) == TaggedOnly(ScanEntries(es))
  {
    if es != [] {
      PrereleaseScanIsFilter(es[1..]);
    }
  }

  function TaggedOnly(s: seq<Version>): (r: seq<Version>)
    ensures forall v :: v in r <==> v in s && v.pre != ""
  {
    if s == [] then []
    else if s[0].pre != "" then [s[0]] + TaggedOnly(s[1..])
    else TaggedOnly(s[1..])
  }

  /** findLatestPrereleaseInstalledVersion: "" or a tagged installed version that no
      installed pre-release outranks. */
  function LatestPrereleaseInstalled(d: Listing): (r: string)
    ensures r == "" <==> forall v :: v in Scan(d) ==> v.pre == ""
    ensures r != "" ==> Parse(r).Some? && Parse(r).value.pre != "" && Parse(r).value in Scan(d)
    ensures r != "" ==> forall v :: v in Scan(d) && v.pre != "" ==> AtLeast(Parse(r).value, v)
  {
    var candidates := ScanPrereleases(d);
    assert forall v :: v in candidates <==> v in Scan(d) && v.pre != "" by {
      if d.Entries? {
        PrereleaseScanIsFilter(d.entries);
      }
    }
    var sorted := Sort(candidates);
    if |sorted| == 0 then
      assert forall v :: v in candidates ==> v in multiset(sorted);
      ""
    else
      assert sorted[0] in multiset(candidates);
      ParseFormat(sorted[0]);
      HeadIsMaximum(sorted);
      assert forall v :: v in candidates ==> v in multiset(sorted);
      Format(sorted[0])
  }

  /** A tag test on a version string: the string parses and carries a pre-release field. */
  predicate HasPrereleaseTag(s: string) {
    Parse(s).Some? && Parse(s).value.pre != ""
  }

  /** findLatestStableInstalledVersion: the highest untagged installed version, "" when
      every installed version is tagged. */
  method LatestStableInstalled(d: Listing) returns (r: string)
    ensures r == "" <==> forall v :: v in Scan(d) ==> v.pre != ""
    ensures r != "" ==> Parse(r).Some? && Parse(r).value.pre == "" && Parse(r).value in Scan(d)
    ensures r != "" ==> forall v :: v in Scan(d) && v.pre == "" ==> AtLeast(Parse(r).value, v)
  {
    var versions := InstalledVersions(d);
    var latest, at := HighestRelease(versions);
    StableOfEnumeration(d, ParseAll(versions), latest, at);
    if latest.Some? {
      ParseFormat(latest.value);
      r := Format(latest.value);
    } else {
      r := "";
    }
  }

  /** The loop of findLatestStableInstalledVersion: walks the version strings, keeping
      the highest untagged version seen so far; `at` is where it was found. */
  method HighestRelease(versions: seq<string>) returns (latest: Option<Version>, ghost at: nat)
    ensures latest.None? <==> forall k :: 0 <= k < |versions| ==> !IsRelease(ParseAll(versions)[k])
    ensures latest.Some? ==> at < |versions| && ParseAll(versions)[at] == latest && latest.value.pre == ""
    ensures latest.Some? ==> forall k :: 0 <= k < |versions| && IsRelease(ParseAll(versions)[k]) ==>
      AtLeast(latest.value, ParseAll(versions)[k].value)
  {
    ghost var parsed := ParseAll(versions);
    latest := None;
    at := 0;
    for i := 0 to |versions|
      invariant latest.None? <==> forall k :: 0 <= k < i ==> !IsRelease(parsed[k])
      invariant latest.Some? ==> at < i && parsed[at] == latest && latest.value.pre == ""
      invariant latest.Some? ==> forall k :: 0 <= k < i && IsRelease(parsed[k]) ==> AtLeast(latest.value, parsed[k].value)
    {
      // the name is used as it is: the enumeration already holds clean version strings
      var version := versions[i];
      var v := Parse(version);
      ParseAllAt(versions, i);
      if v.Some? && !HasPrereleaseTag(version) {
        if latest.None? || Precedes(latest.value, v.value) {
          NewMaximum(parsed, i, latest);
          latest := Some(v.value);
          at := i;
        }
      }
    }
    assert |parsed| == |versions|;
    assert parsed == ParseAll(versions);
  }

  /** The parse of each string. */
  function ParseAll(versions: seq<string>): (r: seq<Option<Version>>)
    ensures |r| == |versions|
  {
    if versions == [] then [] else [Parse(versions[0])] + ParseAll(versions[1..])
  }

  lemma {:induction false} ParseAllAt(versions: seq<string>, k: nat)
    requires k < |versions|
    ensures ParseAll(versions)[k] == Parse(versions[k])
  {
    if k > 0 {
      ParseAllAt(versions[1..], k - 1);
    }
  }

  /** A parsed untagged version. */
  predicate IsRelease(o: Option<Version>) {
    o.Some? && o.value.pre == ""
  }

  /** A running maximum over the enumeration is a maximum over the installed versions. */
  lemma StableOfEnumeration(d: Listing, parsed: seq<Option<Version>>, latest: Option<Version>, at: nat)
    requires parsed == ParseAll(InstalledVersions(d))
    requires latest.None? <==> forall k :: 0 <= k < |parsed| ==> !IsRelease(parsed[k])
    requires latest.Some? ==> at < |parsed| && parsed[at] == latest && latest.value.pre == ""
    requires latest.Some? ==> forall k :: 0 <= k < |parsed| && IsRelease(parsed[k]) ==> AtLeast(latest.value, parsed[k].value)
    ensures latest.None? <==> forall v :: v in Scan(d) ==> v.pre != ""
    ensures latest.Some? ==> latest.value in Scan(d) && Valid(latest.value)
    ensures latest.Some? ==> forall v :: v in Scan(d) && v.pre == "" ==> AtLeast(latest.value, v)
  {
    var versions := InstalledVersions(d);
    forall v | v in Scan(d) && v.pre == "" ensures latest.Some? && AtLeast(latest.value, v) {
      ScannedIsListed(d, v);
      var k :| 0 <= k < |versions| && versions[k] == Format(v);
      ParseFormat(v);
      ParseAllAt(versions, k);
      assert IsRelease(parsed[k]);
    }
    if latest.Some? {
      ParseAllAt(versions, at);
      ListedIsScanned(d, versions[at]);
    }
  }

  /** A release that outranks the running maximum (or is the first one) is the new maximum. */
  lemma NewMaximum(parsed: seq<Option<Version>>, i: nat, latest: Option<Version>)
    requires i < |parsed| && IsRelease(parsed[i])
    requires latest.None? ==> forall k :: 0 <= k < i ==> !IsRelease(parsed[k])
    requires latest.Some? ==> forall k :: 0 <= k < i && IsRelease(parsed[k]) ==> AtLeast(latest.value, parsed[k].value)
    requires latest.Some? ==> Precedes(latest.value, parsed[i].value)
    ensures forall k :: 0 <= k < i + 1 && IsRelease(parsed[k]) ==> AtLeast(parsed[i].value, parsed[k].value)
  {
  }

  // ---------------------------------------------------------------------------
  // Filtering, selection and removal
  // ---------------------------------------------------------------------------

  /** filterVersions: every version except `current`. */
  function FilterVersions(versions: seq<string>, current: string): (r: seq<string>)
    ensures forall x :: x in r <==> x in versions && x != current
    ensures multiset(r) == multiset(versions)[current := 0]
  {
    if versions == [] then []
    else
      assert versions == [versions[0]] + versions[1..];
      if versions[0] != current then [versions[0]] + FilterVersions(versions[1..], current)
      else FilterVersions(versions[1..], current)
  }

  /** Filtering keeps the order: filtering a concatenation concatenates the filtered parts. */
  lemma {:induction false} FilterVersionsAppend(a: seq<string>, b: seq<string>, current: string)
    ensures FilterVersions(a + b, current) == FilterVersions(a, current) + FilterVersions(b, current)
  {
    if a != [] {
      assert a + b == [a[0]] + (a[1..] + b);
      assert (a + b)[0] == a[0] && (a + b)[1..] == a[1..] + b;
      FilterVersionsAppend(a[1..], b, current);
      if a[0] != current {
        assert FilterVersions(a + b, current) == [a[0]] + FilterVersions(a[1..] + b, current);
        assert FilterVersions(a, current) == [a[0]] + FilterVersions(a[1..], current);
      } else {
        assert FilterVersions(a + b, current) == FilterVersions(a[1..] + b, current);
      }
    } else {
      assert a + b == b;
    }
  }

  /** A list without `current` passes the filter unchanged. */
  lemma {:induction false} FilterVersionsKeepsOthers(versions: seq<string>, current: string)
    requires current !in versions
    ensures FilterVersions(versions, current) == versions
  {
    if versions != [] {
      FilterVersionsKeepsOthers(versions[1..], current);
    }
  }

  /** The first position holding `x`, if any. */
  function IndexOf(s: seq<string>, x: string): (r: Option<nat>)
    ensures r.Some? ==> r.value < |s| && s[r.value] == x && forall j :: 0 <= j < r.value ==> s[j] != x
    ensures r.None? <==> x !in s
  {
    if s == [] then None
    else if s[0] == x then Some(0)
    else match IndexOf(s[1..], x)
      case None => None
      case Some(i) => Some(i + 1)
  }

  /** The row createVersionList selects: the first row, then the row of the latest
      installed version if it is found. */
  function InitialSelection(versions: seq<string>, latest: string): (r: Option<nat>)
    ensures r.Some? ==> r.value < |versions|
    ensures r.None? <==> versions == []
    ensures latest != "" && latest in versions ==> r == IndexOf(versions, latest)
    ensures (latest == "" || latest !in versions) && versions != [] ==> r == Some(0)
  {
    var first: Option<nat> := if |versions| > 0 then Some(0) else None;
    if latest != "" then
      match IndexOf(versions, latest)
      case Some(i) => Some(i)
      case None => first
    else first
  }

  /** The initially selected row is the first one, since the latest version heads the list. */
  lemma SelectionIsNewest(d: Listing)
    ensures InitialSelection(InstalledVersions(d), LatestInstalled(d)) == (if InstalledVersions(d) == [] then None else Some(0))
  {
  }

  /** The root after os.RemoveAll of the entry named `name` succeeded. */
  function RemoveEntry(d: Listing, name: string): (r: Listing)
    ensures d.Unreadable? <==> r.Unreadable?
    ensures r.Entries? ==> forall e :: e in r.entries <==> e in d.entries && e.name != name
  {
    match d
    case Unreadable => Unreadable
    case Entries(es) => Entries(RemoveNamed(es, name))
  }

  function RemoveNamed(es: seq<Entry>, name: string): (r: seq<Entry>)
    ensures forall e :: e in r <==> e in es && e.name != name
  {
    if es == [] then []
    else if es[0].name == name then RemoveNamed(es[1..], name)
    else [es[0]] + RemoveNamed(es[1..], name)
  }

  lemma {:induction false} AcceptedNamesAfterRemove(es: seq<Entry>, name: string)
    ensures AcceptedNamesOf(RemoveNamed(es, name)) == FilterVersions(AcceptedNamesOf(es), name)
  {
    if es != [] {
      AcceptedNamesAfterRemove(es[1..], name);
    }
  }

  /** After removing a version's directory the version is no longer listed, and every
      other listed version still is (names written without leading zeros). */
  lemma RemovedVersionNotListed(d: Listing, name: string)
    requires CanonicalNames(d)
    ensures name !in InstalledVersions(RemoveEntry(d, name))
    ensures forall x :: x in InstalledVersions(d) && x != name ==> x in InstalledVersions(RemoveEntry(d, name))
  {
    var d' := RemoveEntry(d, name);
    assert CanonicalNames(d');
    EnumerationPermutation(d);
    EnumerationPermutation(d');
    if d.Entries? {
      AcceptedNamesAfterRemove(d.entries, name);
    }
    assert forall x :: x in InstalledVersions(d) <==> x in AcceptedNames(d) by {
      assert forall x :: x in InstalledVersions(d) <==> x in multiset(AcceptedNames(d));
    }
    assert forall x :: x in InstalledVersions(d') <==> x in AcceptedNames(d') by {
      assert forall x :: x in InstalledVersions(d') <==> x in multiset(AcceptedNames(d'));
    }
  }
}

=== FILE: newestfirst.dfy ===
/**
  Newest-first ordering of versions: the effect of
  `sort.Sort(sort.Reverse(semver.Collection(versions)))`.

  The sort is written as an insertion sort; since versions of equal precedence
  are equal (SemVer.PrecedesTotal), any sort that leaves the list in
  non-increasing precedence produces the same list (SortedUnique), so the
  instability of Go's sort does not show.
 */
module NewestFirst {
  import opened SemVer

  /** Non-increasing precedence: every version ranks at least as high as every later one. */
  predicate Sorted(s: seq<Version>) {
    forall i, j :: 0 <= i < j < |s| ==> AtLeast(s[i], s[j])
  }

  /** Every version of `s` ranks at most as high as `top`. */
  predicate Bounds(top: Version, s: seq<Version>) {
    forall i :: 0 <= i < |s| ==> AtLeast(top, s[i])
  }

  /** Places `v` before the first version that does not outrank it. */
  function Insert(v: Version, s: seq<Version>): (r: seq<Version>)
    requires Sorted(s)
    ensures Sorted(r)
    ensures multiset(r) == multiset(s) + multiset{v}
  {
    if s == [] then [v]
    else if AtLeast(v, s[0]) then
      assert Bounds(v, s) by {
        forall i | 0 <= i < |s| ensures AtLeast(v, s[i]) {
          if i > 0 {
            AtLeastTransitive(v, s[0], s[i]);
          }
        }
      }
      [v] + s
    else
      var tail := Insert(v, s[1..]);
      assert s == [s[0]] + s[1..];
      assert Bounds(s[0], tail) by {
        PrecedesTotal(v, s[0]);
        forall i | 0 <= i < |tail| ensures AtLeast(s[0], tail[i]) {
          assert tail[i] in multiset(tail);
          assert tail[i] == v || tail[i] in multiset(s[1..]);
          if tail[i] != v {
            var k :| 0 <= k < |s[1..]| && s[1..][k] == tail[i];
            assert s[k + 1] == tail[i];
          } else {
            PrecedesIrreflexive(v);
            if Precedes(s[0], v) {
              PrecedesTransitive(s[0], v, s[0]);
              PrecedesIrreflexive(s[0]);
            }
          }
        }
      }
      [s[0]] + tail
  }

  /** The versions of `s`, newest first. */
  function Sort(s: seq<Version>): (r: seq<Version>)
    ensures Sorted(r)
    ensures multiset(r) == multiset(s)
  {
    if s == [] then []
    else
      assert s == [s[0]] + s[1..];
      Insert(s[0], Sort(s[1..]))
  }

  /** The head of a non-empty sorted list ranks at least as high as every member. */
  lemma HeadIsMaximum(s: seq<Version>)
    requires Sorted(s) && |s| > 0
    ensures forall v :: v in s ==> AtLeast(s[0], v)
  {
    forall v | v in s ensures AtLeast(s[0], v) {
      var k :| 0 <= k < |s| && s[k] == v;
      if k == 0 {
        PrecedesIrreflexive(v);
      }
    }
  }

  /** Two non-empty sorted lists holding the same versions start with the same version. */
  lemma HeadsAgree(a: seq<Version>, b: seq<Version>)
    requires Sorted(a) && Sorted(b) && |a| > 0 && |b| > 0
    requires multiset(a) == multiset(b)
    ensures a[0] == b[0]
  {
    assert a[0] in multiset(b) && b[0] in multiset(a);
    HeadIsMaximum(a);
    HeadIsMaximum(b);
    AtLeastAntisymmetric(a[0], b[0]);
  }

  /** Two sorted lists holding the same versions are the same list. */
  lemma {:induction false} SortedUnique(a: seq<Version>, b: seq<Version>)
    requires Sorted(a) && Sorted(b)
    requires multiset(a) == multiset(b)
    ensures a == b
  {
    assert |a| == |multiset(a)| == |multiset(b)| == |b|;
    if a != [] {
      HeadsAgree(a, b);
      assert a == [a[0]] + a[1..] && b == [b[0]] + b[1..];
      assert multiset(a[1..]) == multiset(a) - multiset{a[0]};
      assert multiset(b[1..]) == multiset(b) - multiset{b[0]};
      SortedUnique(a[1..], b[1..]);
    }
  }

  /** Sorting is determined by the multiset of versions alone. */
  lemma SortIsCanonical(s: seq<Version>, t: seq<Version>)
    requires Sorted(t) && multiset(t) == multiset(s)
    ensures Sort(s) == t
  {
    SortedUnique(Sort(s), t);
  }
}

=== FILE: options.dfy ===
/** The optional-value type shared by the modules of this model. */
module Options {

  /** `None` stands for Go's nil pointer or an error return with no value. */
  datatype Option<+T> = None | Some(value: T)
}

=== FILE: semver.dfy ===
/**
  Version directory names and their Semantic Versioning 2.0.0 precedence.

  A name is accepted when it has the shape
      digits "." digits "." digits [ "-" ("rc" | "alpha" | "beta") digits* ]
  which is the language of the pattern `^\d+\.\d+\.\d+(?:-(?:rc|alpha|beta)(?:\d+)?)?$`,
  and when each numeric segment fits the unsigned 64-bit integers the semver
  library parses it into.
 */
module SemVer {
  import opened Options
  import opened Decimal
  import Sequences

  /** The raw pieces of a name, before the numeric segments are evaluated; `pre` is "" when absent. */
  datatype Parts = Parts(major: string, minor: string, patch: string, pre: string)

  /** A parsed version; `pre` is the pre-release identifier, "" for a release. */
  datatype Version = Version(major: nat, minor: nat, patch: nat, pre: string)

  /** Numeric segments are parsed as unsigned 64-bit integers; larger ones are a parse error. */
  const SegmentLimit: nat := 0x1_0000_0000_0000_0000

  /** `rc`, `alpha` or `beta`, followed by any number of digits. */
  predicate IsPreRelease(t: string) {
    || (|t| >= 2 && t[..2] == "rc" && AllDigits(t[2..]))
    || (|t| >= 5 && t[..5] == "alpha" && AllDigits(t[5..]))
    || (|t| >= 4 && t[..4] == "beta" && AllDigits(t[4..]))
  }

  predicate WellFormed(p: Parts) {
    && |p.major| > 0 && AllDigits(p.major)
    && |p.minor| > 0 && AllDigits(p.minor)
    && |p.patch| > 0 && AllDigits(p.patch)
    && (p.pre == "" || IsPreRelease(p.pre))
  }

  /** The optional `-tag` ending of a name. */
  function Suffix(pre: string): string {
    if pre == "" then "" else "-" + pre
  }

  /** The name spelled by a set of pieces. */
  function Join(p: Parts): string {
    p.major + "." + p.minor + "." + p.patch + Suffix(p.pre)
  }

  /** Splits off the longest prefix of digits. */
  function TakeDigits(s: string): (string, string) {
    if s != [] && IsDigit(s[0]) then
      var (d, rest) := TakeDigits(s[1..]);
      ([s[0]] + d, rest)
    else
      ([], s)
  }

  lemma {:induction false} TakeDigitsSpec(s: string)
    ensures TakeDigits(s).0 + TakeDigits(s).1 == s
    ensures AllDigits(TakeDigits(s).0)
    ensures TakeDigits(s).1 == [] || !IsDigit(TakeDigits(s).1[0])
  {
    if s != [] && IsDigit(s[0]) {
      TakeDigitsSpec(s[1..]);
      assert s == [s[0]] + s[1..];
    }
  }

  /** The longest digit prefix is the only split into digits and a rest not starting with a digit. */
  lemma {:induction false} TakeDigitsOf(d: string, rest: string)
    requires AllDigits(d)
    requires rest == [] || !IsDigit(rest[0])
    ensures TakeDigits(d + rest) == (d, rest)
  {
    if d != [] {
      assert (d + rest)[1..] == d[1..] + rest;
      TakeDigitsOf(d[1..], rest);
      assert [d[0]] + d[1..] == d;
    } else {
      assert d + rest == rest;
    }
  }

  /** Recognises the ending after the last numeric field: nothing, or `-` and a pre-release tag. */
  function SplitSuffix(s: string): Option<string> {
    if s == [] then Some("")
    else if s[0] == '-' && IsPreRelease(s[1..]) then Some(s[1..])
    else None
  }

  lemma SplitSuffixSpec(s: string)
    ensures SplitSuffix(s).Some? ==>
      (SplitSuffix(s).value == "" || IsPreRelease(SplitSuffix(s).value)) && Suffix(SplitSuffix(s).value) == s
  {
  }

  lemma SuffixSplit(pre: string)
    requires pre == "" || IsPreRelease(pre)
    ensures SplitSuffix(Suffix(pre)) == Some(pre)
  {
  }

  /** Numeric fields: non-empty runs of digits. */
  predicate DigitFields(fs: seq<string>) {
    forall i :: 0 <= i < |fs| ==> |fs[i]| > 0 && AllDigits(fs[i])
  }

  /** Fields separated by dots. */
  function JoinFields(fs: seq<string>): string
    requires |fs| > 0
  {
    if |fs| == 1 then fs[0] else fs[0] + "." + JoinFields(fs[1..])
  }

  /** Recognises `digits ("." digits){n} suffix`: the n + 1 numeric fields and the pre-release tag. */
  function SplitFields(s: string, n: nat): Option<(seq<string>, string)>
    decreases n
  {
    var (a, rest) := TakeDigits(s);
    if a == [] then None
    else if n == 0 then
      match SplitSuffix(rest)
      case None => None
      case Some(pre) => Some(([a], pre))
    else if rest == [] || rest[0] != '.' then None
    else
      match SplitFields(rest[1..], n - 1)
      case None => None
      case Some(r) => Some(([a] + r.0, r.1))
  }

  /** What SplitFields recognises is n + 1 numeric fields and a tag that spell the input. */
  lemma {:induction false} SplitFieldsSound(s: string, n: nat)
    requires SplitFields(s, n).Some?
    ensures |SplitFields(s, n).value.0| == n + 1
    ensures DigitFields(SplitFields(s, n).value.0)
    ensures SplitFields(s, n).value.1 == "" || IsPreRelease(SplitFields(s, n).value.1)
    ensures JoinFields(SplitFields(s, n).value.0) + Suffix(SplitFields(s, n).value.1) == s
    decreases n
  {
    TakeDigitsSpec(s);
    var (a, rest) := TakeDigits(s);
    if n == 0 {
      SplitSuffixSpec(rest);
    } else {
      SplitFieldsSound(rest[1..], n - 1);
      var r := SplitFields(rest[1..], n - 1).value;
      assert rest == "." + rest[1..];
      JoinFieldsCons(a, r.0, Suffix(r.1));
    }
  }

  lemma JoinFieldsCons(a: string, fs: seq<string>, tail: string)
    requires |fs| > 0
    ensures JoinFields([a] + fs) + tail == a + "." + (JoinFields(fs) + tail)
  {
    assert ([a] + fs)[1..] == fs;
  }

  /** Every spelling of numeric fields and a tag is recognised, with those fields and that tag. */
  lemma {:induction false} SplitFieldsComplete(fs: seq<string>, pre: string)
    requires |fs| > 0 && DigitFields(fs)
    requires pre == "" || IsPreRelease(pre)
    ensures SplitFields(JoinFields(fs) + Suffix(pre), |fs| - 1) == Some((fs, pre))
    decreases |fs|
  {
    if |fs| == 1 {
      SplitLastField(fs[0], pre);
      assert [fs[0]] == fs;
    } else {
      assert DigitFields(fs[1..]);
      SplitFieldsComplete(fs[1..], pre);
      SplitNextField(fs[0], fs[1..], pre);
      assert [fs[0]] + fs[1..] == fs;
    }
  }

  lemma SplitLastField(f: string, pre: string)
    requires |f| > 0 && AllDigits(f)
    requires pre == "" || IsPreRelease(pre)
    ensures SplitFields(f + Suffix(pre), 0) == Some(([f], pre))
  {
    if pre != "" {
      assert Suffix(pre)[0] == '-';
    }
    TakeDigitsOf(f, Suffix(pre));
    SuffixSplit(pre);
  }

  lemma SplitNextField(f: string, fs: seq<string>, pre: string)
    requires |f| > 0 && AllDigits(f) && |fs| > 0
    requires SplitFields(JoinFields(fs) + Suffix(pre), |fs| - 1) == Some((fs, pre))
    ensures SplitFields(JoinFields([f] + fs) + Suffix(pre), |fs|) == Some(([f] + fs, pre))
  {
    var joined := JoinFields(fs);
    var suffix := Suffix(pre);
    var tail := joined + suffix;
    var rest := "." + tail;
    assert ([f] + fs)[1..] == fs;
    assert JoinFields([f] + fs) == f + "." + joined;
    Sequences.Associative(f + ".", joined, suffix);
    Sequences.Associative(f, ".", tail);
    TakeDigitsOf(f, rest);
    assert rest[1..] == tail;
    var n := |fs|;
    assert SplitFields(f + rest, n) == Some(([f] + fs, pre));
  }

  /** The recogniser of the name pattern: the pieces of `s`, or None when `s` does not match. */
  function Split(s: string): Option<Parts> {
    match SplitFields(s, 2)
    case None => None
    case Some(r) => if |r.0| == 3 then Some(Parts(r.0[0], r.0[1], r.0[2], r.1)) else None
  }

  lemma JoinAsFields(p: Parts)
    ensures Join(p) == JoinFields([p.major, p.minor, p.patch]) + Suffix(p.pre)
  {
    var fs := [p.major, p.minor, p.patch];
    assert fs[1..] == [p.minor, p.patch];
    assert fs[1..][1..] == [p.patch];
    assert JoinFields(fs[1..][1..]) == p.patch;
    assert JoinFields(fs[1..]) == p.minor + "." + p.patch;
    assert JoinFields(fs) == p.major + "." + (p.minor + "." + p.patch);
    assert p.major + "." + (p.minor + "." + p.patch) == p.major + "." + p.minor + "." + p.patch;
  }

  /** Whatever the recogniser accepts is a well-formed name spelled by its pieces. */
  lemma SplitSound(s: string)
    requires Split(s).Some?
    ensures WellFormed(Split(s).value) && Join(Split(s).value) == s
  {
    SplitFieldsSound(s, 2);
    var p := Split(s).value;
    var fs := SplitFields(s, 2).value.0;
    assert fs == [p.major, p.minor, p.patch];
    assert DigitFields(fs);
    assert fs[0] == p.major && fs[1] == p.minor && fs[2] == p.patch;
    JoinAsFields(p);
  }

  /** Every well-formed name is recognised, with its own pieces: together with SplitSound,
      the recogniser accepts exactly the pattern's language. */
  lemma SplitJoin(p: Parts)
    requires WellFormed(p)
    ensures Split(Join(p)) == Some(p)
  {
    var fs := [p.major, p.minor, p.patch];
    JoinAsFields(p);
    assert DigitFields(fs);
    SplitFieldsComplete(fs, p.pre);
  }

  /** The shape of the pattern, as a predicate on names. */
  predicate MatchesPattern(s: string) {
    Split(s).Some?
  }

  /** The stricter pattern that demands a pre-release suffix. */
  predicate MatchesPrereleasePattern(s: string) {
    Split(s).Some? && Split(s).value.pre != ""
  }

  predicate Valid(v: Version) {
    && v.major < SegmentLimit && v.minor < SegmentLimit && v.patch < SegmentLimit
    && (v.pre == "" || IsPreRelease(v.pre))
  }

  /** The model of semver.NewVersion on names: None on a pattern mismatch or a segment overflow. */
  function Parse(s: string): (r: Option<Version>)
    ensures r.Some? ==> Valid(r.value) && MatchesPattern(s)
  {
    match Split(s)
    case None => None
    case Some(p) =>
      SplitSound(s);
      var v := Version(Value(p.major), Value(p.minor), Value(p.patch), p.pre);
      if v.major < SegmentLimit && v.minor < SegmentLimit && v.patch < SegmentLimit then Some(v) else None
  }

  /** The model of Version.String(): decimal segments and the pre-release identifier. */
  function Format(v: Version): (s: string)
    ensures |s| > 0
  {
    Join(Parts(Render(v.major), Render(v.minor), Render(v.patch), v.pre))
  }

  /** A name that matches the pattern and writes its numeric segments without leading zeros. */
  predicate IsCanonicalName(s: string) {
    Split(s).Some?
    && Canonical(Split(s).value.major)
    && Canonical(Split(s).value.minor)
    && Canonical(Split(s).value.patch)
  }

  /** Parsing the string of a valid version gives the version back. */
  lemma ParseFormat(v: Version)
    requires Valid(v)
    ensures Parse(Format(v)) == Some(v)
  {
    var p := Parts(Render(v.major), Render(v.minor), Render(v.patch), v.pre);
    SplitJoin(p);
    ValueOfRender(v.major);
    ValueOfRender(v.minor);
    ValueOfRender(v.patch);
  }

  /** The string of a parsed canonical name is that name. */
  lemma FormatParse(s: string)
    requires IsCanonicalName(s)
    requires Parse(s).Some?
    ensures Format(Parse(s).value) == s
  {
    var p := Split(s).value;
    SplitSound(s);
    RenderOfValue(p.major);
    RenderOfValue(p.minor);
    RenderOfValue(p.patch);
  }

  /** Formatted versions are canonical names. */
  lemma FormatIsCanonical(v: Version)
    requires Valid(v)
    ensures IsCanonicalName(Format(v))
  {
    SplitJoin(Parts(Render(v.major), Render(v.minor), Render(v.patch), v.pre));
  }

  // ---------------------------------------------------------------------------
  // Precedence (Semantic Versioning 2.0.0, section 11)
  // ---------------------------------------------------------------------------

  /** ASCII lexical order on identifiers (section 11.4.2): the first differing
      character decides; a proper prefix ranks lower (section 11.4.4). */
  predicate LexLess(a: string, b: string) {
    if a == [] then b != []
    else if b == [] then false
    else if a[0] != b[0] then a[0] < b[0]
    else LexLess(a[1..], b[1..])
  }

  lemma {:induction false} LexLessIrreflexive(a: string)
    ensures !LexLess(a, a)
  {
    if a != [] {
      LexLessIrreflexive(a[1..]);
    }
  }

  lemma {:induction false} LexLessTransitive(a: string, b: string, c: string)
    requires LexLess(a, b) && LexLess(b, c)
    ensures LexLess(a, c)
  {
    if a != [] && b != [] && c != [] && a[0] == b[0] && b[0] == c[0] {
      LexLessTransitive(a[1..], b[1..], c[1..]);
    }
  }

  lemma {:induction false} LexLessTotal(a: string, b: string)
    ensures a == b || LexLess(a, b) || LexLess(b, a)
  {
    if a != [] && b != [] && a[0] == b[0] {
      LexLessTotal(a[1..], b[1..]);
      if a[1..] == b[1..] {
        assert a == [a[0]] + a[1..] && b == [b[0]] + b[1..];
      }
    }
  }

  /** Pre-release fields: a release ("") ranks above every pre-release (section 11.3),
      two pre-release identifiers with letters compare lexically (section 11.4). */
  predicate PreLess(a: string, b: string) {
    if a == "" then false
    else if b == "" then true
    else LexLess(a, b)
  }

  /** Strict precedence: `a` ranks below `b`. Major, minor and patch compare
      numerically in that order (section 11.2); then the pre-release field decides. */
  predicate Precedes(a: Version, b: Version)
    ensures Precedes(a, b) ==> a != b
  {
    if a.major != b.major then a.major < b.major
    else if a.minor != b.minor then a.minor < b.minor
    else if a.patch != b.patch then a.patch < b.patch
    else
      LexLessIrreflexive(a.pre);
      PreLess(a.pre, b.pre)
  }

  /** `a` ranks at least as high as `b`. */
  predicate AtLeast(a: Version, b: Version) {
    !Precedes(a, b)
  }

  lemma PrecedesIrreflexive(a: Version)
    ensures !Precedes(a, a)
  {
    LexLessIrreflexive(a.pre);
  }

  lemma PrecedesTransitive(a: Version, b: Version, c: Version)
    requires Precedes(a, b) && Precedes(b, c)
    ensures Precedes(a, c)
  {
    if a.major == b.major == c.major && a.minor == b.minor == c.minor && a.patch == b.patch == c.patch
       && a.pre != "" && b.pre != "" && c.pre != "" {
      LexLessTransitive(a.pre, b.pre, c.pre);
    }
  }

  lemma PrecedesAsymmetric(a: Version, b: Version)
    requires Precedes(a, b)
    ensures AtLeast(b, a)
  {
    if Precedes(b, a) {
      PrecedesTransitive(a, b, a);
      PrecedesIrreflexive(a);
    }
  }

  /** Any two versions are equal or one of them ranks below the other: versions of
      equal precedence are the same version. */
  lemma PrecedesTotal(a: Version, b: Version)
    ensures a == b || Precedes(a, b) || Precedes(b, a)
  {
    LexLessTotal(a.pre, b.pre);
  }

  lemma AtLeastAntisymmetric(a: Version, b: Version)
    requires AtLeast(a, b) && AtLeast(b, a)
    ensures a == b
  {
    PrecedesTotal(a, b);
  }

  lemma AtLeastTransitive(a: Version, b: Version, c: Version)
    requires AtLeast(a, b) && AtLeast(b, c)
    ensures AtLeast(a, c)
  {
    PrecedesTotal(a, b);
    PrecedesTotal(b, c);
    if Precedes(a, c) {
      if a == b {
      } else if b == c {
      } else {
        PrecedesTransitive(c, b, a);
        PrecedesIrreflexive(a);
        PrecedesTransitive(a, c, a);
      }
    }
  }

  /** A release ranks above each of its own pre-releases (section 11.3). */
  lemma ReleaseAbovePrerelease(v: Version)
    requires v.pre != ""
    ensures Precedes(v, v.(pre := ""))
  {
  }
}

=== FILE: sequences.dfy ===
/** Facts about sequences shared by the modules of this model. */
module Sequences {

  /** Concatenation is associative; stated as a lemma so a proof can name the regrouping it needs. */
  lemma Associative<T>(x: seq<T>, y: seq<T>, z: seq<T>)
    ensures x + (y + z) == (x + y) + z
  {
  }
}
